=== FILE: README.md ===
# CineCritic catalog logic in Dafny

CineCritic is a movie-review web site. Its public listing shows the live
catalog snapshot, filtered by a search text and by genre, language, rating
and censor-certificate filters. An admin area lets a signed-in editor add,
edit and delete movies. Storage, the live subscription and sign-in are all
handled by a hosted backend. This project models the logic that the site
itself implements:

- **Listing filter** (`Listing`, module file `listing.dfy`). A movie stays in
  the listing when five tests all pass:
  - its lower-cased title contains the lower-cased search text;
  - it shares a genre with the selected genres;
  - it shares a language with the selected languages;
  - its rating is inside the closed range [minRating, maxRating];
  - its certificate is among the selected ones.

  An empty selection restricts nothing. The module also models what the page
  renders.
- **Shared filter state** (`MovieContext`). This is the filters record, its
  defaults, and the search text.
- **Navigation bar** (`Navbar`). This is the only writer of the shared state:
  the search inputs, the genre and language toggles, and the two rating
  sliders. The module also covers a session of events and the invariants
  such a session keeps.
- **Filter panel** (`FilterPanel`). It holds its own copy of the filters. It
  updates them with `{ ...filters, ...patch }`, reports each new state to its
  callback, and has toggles, sliders and "Clear All".
- **Admin form** (`AdminMovieForm`). This covers:
  - the initial state for adding or editing;
  - the 5 MB poster gate;
  - field-by-field validation into an error map;
  - `toggleSelection` on the genre and language lists;
  - the rating input's NaN-to-0 coercion;
  - the choice between the add and update store calls on submit.
- **Admin dashboard** (`Dashboard`). This covers the sign-in redirect, loading
  the catalog, and deleting a movie after confirmation. It tracks the
  `deletingId` that disables the button of the movie being deleted.

Three helper modules support these:

- `Seqs` models the JavaScript array idioms everything is built from:
  `filter`, `some`/`includes`, and the "toggle membership" expression.
  `filter` is proved to keep exactly the passing elements, as an
  order-preserving subsequence with the input's multiplicities. The toggle is
  proved to flip one value, to undo itself when the value was absent, and to keep a list free of
  duplicates. `some` is a plain definition (`Seqs.Intersects`).
- `Text` models `toLowerCase` (ASCII) and `String.prototype.includes`.
- `Options` provides `Option` for optional and nullable values.

Data are immutable datatypes. Ratings are `real` because the code only
compares them. Tags are plain strings: the navigation bar, the filter panel
and the admin form each offer a different genre and language vocabulary
(`Navbar.NavbarGenres`, `FilterPanel.PanelGenres`,
`AdminMovieForm.FormGenres`). A movie's certificate is a datatype, but the
certificate selection is a list of strings, as in the source.

Behaviours of the code that the model keeps as written:

- Genres and languages are ordered lists that may repeat, not sets.
- The vocabularies differ between components.
- Default filters with an empty search are the identity only on movies rated
  in [0, 5] (`Listing.DefaultFiltersKeepAll`), not on every snapshot.
- The admin form accepts an unread picked file as a poster, while the URL it
  submits is the preview (`AdminMovieForm.SubmitBeforePreviewLoads`).

## Model

| member | source | states |
|---|---|---|
| Seqs.Filter | app/page.tsx:40 | `filter` keeps exactly the elements satisfying the callback and never grows |
| Seqs.KeptIndices | app/page.tsx:40 | the kept elements come from strictly increasing positions of the input, and those positions are exactly the ones whose element passes |
| Seqs.FilterIsSubsequence | app/page.tsx:40 | a filter result is a subsequence of its input in the same relative order |
| Seqs.FilterMultiset | app/page.tsx:40 | a passing value occurs in the result exactly as often as in the input, a failing one never (no duplication, no loss) |
| Seqs.RemoveAll | components/FilterPanel.tsx:65 | `filter(x => x !== v)` removes every `v` and keeps every other element |
| Seqs.Toggle | components/FilterPanel.tsx:64-66 | the toggle idiom flips membership of `v` and keeps membership of every other value |
| Seqs.ToggleTwiceRestores | components/Navbar.tsx:304-306 | toggling an absent value twice gives back the original list |
| Seqs.ToggleNoDuplicates | components/AdminMovieForm.tsx:121-123 | toggling keeps a duplicate-free list duplicate-free |
| Text.ToLower | app/page.tsx:41-43 | lower-casing keeps the length, leaves no upper-case ASCII letter, and changes only the letters A-Z |
| Text.ToLowerIdempotent | app/page.tsx:41-43 | lower-casing twice is lower-casing once |
| Text.ToLowerIgnoresCase | app/page.tsx:41-43 | two strings of one length lower-case alike exactly when, position by position, they hold the same character or an ASCII letter and its other case |
| Text.IncludesIffOccurs | app/page.tsx:43 | `includes` holds exactly when the needle occurs at some offset |
| Text.IncludesEmpty | app/page.tsx:43 | every string includes the empty string |
| Listing.FilterMovies | app/page.tsx:40-63 | a movie is listed iff it passes all five tests (search, genre, language, rating, censor), and the result is no longer than the snapshot |
| Listing.FilterMoviesPositions | app/page.tsx:40-63 | the listing is the snapshot restricted to the passing positions, in snapshot order, each position once |
| Listing.FilterMoviesCounts | app/page.tsx:40-63 | a passing movie is listed as many times as it occurs in the snapshot, a failing one never |
| Listing.EmptySearchMatchesAll | app/page.tsx:41-43 | empty search text matches every title |
| Listing.SearchIsSubstringIgnoringCase | app/page.tsx:41-43 | the search holds iff the lower-cased text occurs in the lower-cased title, so it is unchanged by lower-casing either side |
| Listing.SearchCaseInsensitive | app/page.tsx:41-43 | search texts that lower-case alike list the same movies |
| Listing.EmptySelectionsFilterByRatingOnly | app/page.tsx:44-54 | with no genre, language or certificate selected and no search text, exactly the movies in the rating range are listed |
| Listing.DefaultFiltersKeepAll | app/page.tsx:40-63 | the provider's default filters with empty search return every snapshot whose ratings lie in [0, 5] unchanged |
| Listing.InvertedRangeKeepsNothing | app/page.tsx:50-51 | minRating > maxRating lists nothing |
| Listing.GenreMatchIsIntersection | app/page.tsx:44-46 | genres match by intersection: {Action, Drama} matches {Drama, Horror} but not {Horror, Thriller} |
| Listing.RatingRangeInclusive | app/page.tsx:50-51 | both rating bounds are inclusive: 5.0 is within [0, 5] and [5, 5], and 3.0 is outside [3.1, ...] |
| Listing.SearchScenario | app/page.tsx:40-63 | searching "no" over Nova and Bloodline lists only Nova |
| Listing.GenreScenario | app/page.tsx:44-46 | selecting Horror over Nova and Bloodline lists only Bloodline |
| Listing.RenderListing | app/page.tsx:71-113 | skeletons exactly while loading, "No movies found" exactly for an empty loaded catalog, "No movies match" exactly when the loaded catalog is non-empty and nothing passes, otherwise cards showing exactly the filtered list |
| FilterPanel.Merge | components/FilterPanel.tsx:34-38 | `{ ...filters, ...patch }`: every field in the patch takes the patch value, every other field is unchanged |
| FilterPanel.MergeNoChange | components/FilterPanel.tsx:35 | an empty patch changes nothing |
| FilterPanel.MergeThen | components/FilterPanel.tsx:35 | two merges in a row equal one merge of the combined patch, later fields winning |
| FilterPanel.MergeIdempotent | components/FilterPanel.tsx:35 | merging the same patch twice is merging it once |
| FilterPanel.HandleFilterChange | components/FilterPanel.tsx:34-38 | the new state is the merge and the callback receives exactly that state |
| FilterPanel.ClickGenre | components/FilterPanel.tsx:63-67 | a genre button flips that genre, keeps the other genres, changes no other field, and reports the new state |
| FilterPanel.CertificateButtonsCoverCensor | components/FilterPanel.tsx:22 | the certificate buttons are exactly the labels of the three certificates a movie can carry |
| FilterPanel.ClickCensor | components/FilterPanel.tsx:114-118 | a certificate button flips that certificate and changes no other field |
| FilterPanel.ClickLanguage | components/FilterPanel.tsx:137-141 | a language button flips that language and changes no other field |
| FilterPanel.SlideMin | components/FilterPanel.tsx:83-89 | the lower slider sets only minRating, to a value in [0, 5] |
| FilterPanel.SlideMax | components/FilterPanel.tsx:95-101 | the upper slider sets only maxRating, to a value in [0, 5] |
| FilterPanel.ClearAll | components/FilterPanel.tsx:154-161 | Clear All yields the initial state (nothing selected, range 0 to 5) from any state and reports it |
| FilterPanel.ClearAllIdempotent | components/FilterPanel.tsx:154-161 | Clear All twice is Clear All once |
| FilterPanel.ClickGenreTwice | components/FilterPanel.tsx:63-67 | a genre clicked on and off again restores the panel state |
| Navbar.TypeSearch | components/Navbar.tsx:93 | a search input sets the search text to the raw input and leaves the filters alone |
| Navbar.ClickGenre | components/Navbar.tsx:303-307 | a genre click flips that genre and leaves languages, ratings, certificates and search text unchanged |
| Navbar.ClickLanguage | components/Navbar.tsx:367-371 | a language click flips that language and leaves every other field unchanged |
| Navbar.SlideMin | components/Navbar.tsx:327-336 | the minimum slider sets only minRating, to a value on the 0..5 half-step grid |
| Navbar.SlideMax | components/Navbar.tsx:343-352 | the maximum slider sets only maxRating, to a value on the 0..5 half-step grid |
| Navbar.Step | components/Navbar.tsx:93-371 | no navigation-bar handler writes the certificate selection; only search inputs write the search text, which then equals the input |
| Navbar.RunKeepsCensorRatings | components/Navbar.tsx:93-371 | any session of navigation-bar events leaves the certificate selection as it was |
| Navbar.DefaultIsNavbarState | context/MovieContext.tsx:24-30 | the provider's defaults satisfy the navigation-bar invariant |
| Navbar.StepKeepsNavbarState | components/Navbar.tsx:300-381 | every event the bar can fire keeps selections within its vocabulary and free of duplicates, keeps no certificate selection, and keeps both bounds on the slider grid |
| Navbar.RunKeepsNavbarState | components/Navbar.tsx:300-381 | the same invariant holds after any session of such events |
| Navbar.UnofferedGenresHidden | components/Navbar.tsx:20-29 | while any navbar genre is selected, a movie filed only under genres the bar does not offer is not listed |
| Navbar.VocabulariesDiffer | components/Navbar.tsx:20-40 | the bar, the side panel and the admin form offer different genres and languages: Crime and Telugu can be filed but not selected in the bar, Romance and German only in the bar |
| Navbar.CrimeMovieHidden | components/AdminMovieForm.tsx:15-23 | a movie filed under the admin form's Crime alone is hidden whenever a genre is selected in the bar |
| Navbar.ClickGenreTwice | components/Navbar.tsx:303-307 | a genre clicked on and off again restores the shared state |
| AdminMovieForm.InitialForm | components/AdminMovieForm.tsx:41-53 | the form starts from the edited movie's fields and poster, or from blanks with certificate U and rating 0, with no picked file and no errors |
| AdminMovieForm.ValidationErrors | components/AdminMovieForm.tsx:81-92 | each of empty title, no genre, no language, no poster (neither preview nor picked file), empty review and rating outside [1, 5] yields its own error with its own message, and nothing else does |
| AdminMovieForm.Validate | components/AdminMovieForm.tsx:81-95 | validate replaces only the error map, and succeeds iff the map is empty iff the form is complete |
| AdminMovieForm.ValidationBoundaries | components/AdminMovieForm.tsx:83-91 | ratings 1.0 and 5.0 pass, 0 and 5.1 fail with a rating error, and an empty title, no genres or no poster each block a complete form |
| AdminMovieForm.EnterRating | components/AdminMovieForm.tsx:218-223 | the rating input stores the parsed number, or 0 for a non-number, which then fails validation; nothing else changes |
| AdminMovieForm.ToggleSelection | components/AdminMovieForm.tsx:119-125 | toggleSelection flips the value in the chosen list, keeps the membership of every other value in it, and leaves every other form field and all other state unchanged |
| AdminMovieForm.ToggleSelectionTwice | components/AdminMovieForm.tsx:119-125 | toggling an absent value twice restores the form |
| AdminMovieForm.ToggleSelectionNoDuplicates | components/AdminMovieForm.tsx:121-123 | toggling keeps both lists duplicate-free |
| AdminMovieForm.ImageChange | components/AdminMovieForm.tsx:59-70 | no file changes nothing; a file over 5 MB only sets the poster error and keeps the picked file and preview; otherwise the poster error is cleared and the file is picked |
| AdminMovieForm.ImageChangeValidation | components/AdminMovieForm.tsx:59-70 | an accepted file satisfies the poster check before its read completes; an oversized file leaves every validation error as it was |
| AdminMovieForm.PreviewLoaded | components/AdminMovieForm.tsx:71-77 | the finished read sets only the preview, and a non-empty preview satisfies the poster requirement |
| AdminMovieForm.RemoveImage | components/AdminMovieForm.tsx:273-277 | removing the poster clears preview and picked file, so the next validation reports the poster error again |
| AdminMovieForm.Submit | components/AdminMovieForm.tsx:97-109 | no store call unless the form is complete; update exactly when editing a movie with a non-empty id, otherwise add; the payload is the form data plus the preview as poster URL |
| AdminMovieForm.SubmittedInputWellFormed | components/AdminMovieForm.tsx:99-109 | whatever reaches the store has a title, a genre, a language, a review and a rating in [1, 5] |
| AdminMovieForm.SubmitBeforePreviewLoads | components/AdminMovieForm.tsx:87-108 | a submission after picking a file but before its read completes adds a movie with an empty poster URL |
| AdminMovieForm.BlankFormErrors | components/AdminMovieForm.tsx:46-53 | a blank add form fails exactly the title, genre, language, poster, review and rating checks |
| AdminMovieForm.EditUnchangedSaves | components/AdminMovieForm.tsx:41-53 | the edit form opened on a well-formed stored movie and saved unchanged passes validation and updates that movie with its own fields and poster URL |
| Dashboard.AuthEffect | app/admin/dashboard/page.tsx:32-38 | the page redirects to login, and loads nothing, exactly when the session check has finished without a user |
| Dashboard.Render | app/admin/dashboard/page.tsx:55-110 | the sign-in spinner exactly while no signed-in user is known; for a signed-in user, the movies spinner exactly while loading, "No Movies Yet" exactly for an empty loaded list, and otherwise the grid of the whole list |
| Dashboard.InitialShowsSpinner | app/admin/dashboard/page.tsx:16-18 | on mount the page shows a spinner, never a list; an empty first load shows "No Movies Yet" to a signed-in user |
| Dashboard.RedirectShowsNothing | app/admin/dashboard/page.tsx:32-62 | whenever the guard redirects, no catalog content is rendered |
| Dashboard.LoadFinished | app/admin/dashboard/page.tsx:20-30 | a finished load replaces the list on success, keeps it on failure, and ends the loading state either way |
| Dashboard.LoadedListShown | app/admin/dashboard/page.tsx:20-30 | after a signed-in user's load succeeds, the page shows "No Movies Yet" for an empty result and otherwise the grid of exactly the fetched list |
| Dashboard.RemoveById | app/admin/dashboard/page.tsx:46 | removal by id leaves no movie with that id and keeps every other movie |
| Dashboard.RemoveByIdKeepsOrder | app/admin/dashboard/page.tsx:46 | removal by id keeps exactly the other movies, in their relative order |
| Dashboard.BeginDelete | app/admin/dashboard/page.tsx:40-44 | a deletion starts iff the dialog is confirmed, the button is enabled and the movie has a non-empty id; otherwise nothing changes; once started, that movie's button is disabled |
| Dashboard.FinishDeleteAsWritten | app/admin/dashboard/page.tsx:45-52 | as written: success sets the list to the click-time list without the deleted movie, failure keeps the list, deletingId is cleared either way |
| Dashboard.OverlappingDeletesAsWritten | app/admin/dashboard/page.tsx:43-52 | two overlapping successful deletions of a and b leave a in the list |
| Dashboard.FinishDelete | app/admin/dashboard/page.tsx:45-52 | success removes the deleted movie from the current list and keeps every other movie, failure keeps the list, deletingId is cleared either way |
| Dashboard.OverlappingDeletesRemoveBoth | app/admin/dashboard/page.tsx:45-46 | with the corrected update, two successful deletions remove both movies |
| Dashboard.HandleDelete | app/admin/dashboard/page.tsx:40-53 | declined: nothing issued, nothing changes; confirmed: the deletion is issued and deletingId ends cleared, with the movie gone on success and the list unchanged on failure |
| Dashboard.HandleDeleteKeepsOrder | app/admin/dashboard/page.tsx:46 | a successful deletion keeps exactly the movies with another id, in their relative order |
| Dashboard.HandleDeleteMatchesAsWritten | app/admin/dashboard/page.tsx:40-53 | when nothing settles in between, the corrected handler ends in the same state as the handler as written |

## Findings

| source | as written | input that shows it | evidently intended | confidence | as-written member | corrected member |
|---|---|---|---|---|---|---|
| app/admin/dashboard/page.tsx:46 | `setMovies(movies.filter(...))` filters the `movies` the handler captured when it was clicked, not the current list | confirm deletion of movie a; before that call settles, confirm deletion of movie b; both succeed, a first | both a and b are gone from the dashboard (`setMovies(prev => prev.filter(...))`) | medium, not executed | Dashboard.FinishDeleteAsWritten | Dashboard.FinishDelete |

The counterexample is `Dashboard.OverlappingDeletesAsWritten`, and the
corrected property is `Dashboard.OverlappingDeletesRemoveBoth`.
`Dashboard.HandleDelete` uses the corrected `FinishDelete`.

## Left out

- Store calls (`lib/movieService.ts`) are not modelled. These are add, update,
  delete, get, list and the live subscription, with the server timestamp and
  descending `createdAt` order. Snapshots are arbitrary `seq<Movie>` inputs.
  The outcome of a delete is a `succeeded` parameter, and a submission yields
  the store call it would make (`AdminMovieForm.StoreCall`).
- The subscription lifetime and its callback on the listing page
  (app/page.tsx:31-38) are not modelled: they are React effect plumbing. The
  page is modelled from its `isLoading` flag and `movies` list.
- Session observation (`lib/useAuth.ts`) is an input, `Dashboard.Auth`.
  Login, logout and the guards of the add, edit and admin-layout pages are
  routing plumbing.
- `FileReader` encoding is not modelled: a picked file carries the data URL
  the read would produce. The branch where the result is not a string is not
  modelled.
- `confirm` is the `confirmed` parameter. `alert`, `console`, and router push
  and refresh are not modelled: they are browser I/O.
- After a store call, `handleSubmit` awaits it, catches errors, toggles
  `isLoading` and disables the submit button. None of this is modelled: it
  only affects navigation and a spinner.
- The plain setters for title, review and certificate are not modelled
  separately. They are one-field assignments with no logic
  (components/AdminMovieForm.tsx:143-145, 237-241, 318-319).
- `errors.poster = undefined` is modelled as removing the key. The only
  reader is the `errors.poster &&` display check, and `validate` rebuilds the
  whole map.
- Text.ToLower: folds only ASCII A-Z, not the full Unicode `toLowerCase`.
- `parseFloat`, `toFixed` and NaN comparisons are not modelled. Ratings are
  already-parsed reals. NaN appears only as the `None` input of
  `AdminMovieForm.EnterRating`.
- Navbar.SlideMin: the slider value is taken as a real on the 0..5
  half-step grid, as the range input's attributes allow. Parsing its string
  value is not modelled.
- A dashboard reload racing with a deletion is not modelled. Only
  overlapping deletions are.
- Presentation state is not modelled: the mobile menu, the filter dropdown's
  open flag, the panel's collapse flag, animations and markup.
- `createdAt` is an opaque integer. Ordering by it belongs to the store.

=== FILE: admin_form.dfy ===
/** The admin create/edit form (components/AdminMovieForm.tsx): its state,
    the poster upload gate, field-by-field validation, the list toggles and
    the choice of store call on submit. */
module AdminMovieForm {
  import opened Options
  import opened Seqs
  import opened MovieTypes

  /** The buttons the form offers. */
  const FormGenres: seq<string> := ["Action", "Comedy", "Drama", "Horror", "Sci-Fi", "Crime", "Thriller"]
  const FormLanguages: seq<string> := ["English", "Hindi", "Telugu", "Tamil", "Malayalam", "Kannada"]

  /** `formData`: the editable fields of a movie. */
  datatype FormData = FormData(
    title: string,
    genres: seq<string>,
    languages: seq<string>,
    censor: Censor,
    rating: real,
    review: string
  )

  /** The keys of the error map: the form's fields and "poster". */
  datatype Field = Title | Genres | Languages | CensorField | Rating | Review | Poster

  /** The message shown under each field. */
  function ErrorMessage(f: Field): string {
    match f
    case Title => "Title is required"
    case Genres => "Select at least one genre"
    case Languages => "Select at least one language"
    case CensorField => ""
    case Rating => "Rating must be between 1 and 5"
    case Review => "Review is required"
    case Poster => "Poster is required"
  }

  /** The message of the upload gate. */
  const PosterTooLarge := "Image size should be less than 5MB"

  /** The largest poster file accepted, in bytes: 5 * 1024 * 1024. */
  const MaxPosterBytes := 5 * 1024 * 1024

  /** A picked file: its size and the data URL the browser will read from it. */
  datatype ImageFile = ImageFile(size: nat, dataUrl: string)

  /** The component's state. */
  datatype FormState = FormState(
    data: FormData,
    selectedImage: Option<ImageFile>,
    imagePreview: string,
    errors: map<Field, string>
  )

  /** The form's initial state: the edited movie's fields, or blanks with
      certificate "U" and rating 0 when adding. */
  function InitialForm(initial: Option<Movie>): (s: FormState)
    ensures s.selectedImage == None && s.errors == map[]
    ensures initial.None? ==> s.data == FormData("", [], [], U, 0.0, "") && s.imagePreview == ""
    ensures initial.Some? ==>
      var m := initial.value;
      && s.data == FormData(m.title, m.genres, m.languages, m.censor, m.rating, m.review)
      && s.imagePreview == m.posterUrl
  {
    match initial
    case None => FormState(FormData("", [], [], U, 0.0, ""), None, "", map[])
    case Some(m) =>
      // `x || d` keeps `x` here: an empty string or a zero rating is the default anyway.
      FormState(FormData(m.title, m.genres, m.languages, m.censor, m.rating, m.review), None, m.posterUrl, map[])
  }

  /** The form holds everything a movie needs. */
  predicate Complete(s: FormState) {
    && s.data.title != ""
    && |s.data.genres| > 0
    && |s.data.languages| > 0
    && (s.imagePreview != "" || s.selectedImage.Some?)
    && s.data.review != ""
    && 1.0 <= s.data.rating <= 5.0
  }

  /** The error map `validate` builds: one entry per failing field, with its message. */
  function ValidationErrors(s: FormState): (errs: map<Field, string>)
    ensures Title in errs <==> s.data.title == ""
    ensures Genres in errs <==> |s.data.genres| == 0
    ensures Languages in errs <==> |s.data.languages| == 0
    ensures Poster in errs <==> s.imagePreview == "" && s.selectedImage.None?
    ensures Review in errs <==> s.data.review == ""
    ensures Rating in errs <==> s.data.rating < 1.0 || s.data.rating > 5.0
    ensures CensorField !in errs
    ensures forall f :: f in errs ==> errs[f] == ErrorMessage(f)
  {
    var e0: map<Field, string> := map[];
    var e1 := if s.data.title == "" then e0[Title := ErrorMessage(Title)] else e0;
    var e2 := if |s.data.genres| == 0 then e1[Genres := ErrorMessage(Genres)] else e1;
    var e3 := if |s.data.languages| == 0 then e2[Languages := ErrorMessage(Languages)] else e2;
    var e4 := if s.imagePreview == "" && s.selectedImage.None? then e3[Poster := ErrorMessage(Poster)] else e3;
    var e5 := if s.data.review == "" then e4[Review := ErrorMessage(Review)] else e4;
    if s.data.rating < 1.0 || s.data.rating > 5.0 then e5[Rating := ErrorMessage(Rating)] else e5
  }

  /** The verdict of `validate` and the state it leaves behind. */
  datatype Validated = Validated(ok: bool, state: FormState)

  /** `validate`: replace the error map by the fresh one and succeed exactly
      when it is empty, that is, when the form is complete. */
  function Validate(s: FormState): (v: Validated)
    ensures v.state == s.(errors := v.state.errors)
    ensures v.state.errors == ValidationErrors(s)
    ensures v.ok <==> |v.state.errors| == 0
    ensures v.ok <==> Complete(s)
  {
    var errs := ValidationErrors(s);
    assert !Complete(s) ==> Title in errs || Genres in errs || Languages in errs || Poster in errs || Review in errs || Rating in errs;
    Validated(|errs| == 0, s.(errors := errs))
  }

  /** Each missing or out-of-range field blocks validation on its own, and both
      ends of the rating range are accepted. */
  lemma ValidationBoundaries(s: FormState)
    requires Complete(s)
    ensures Validate(s.(data := s.data.(rating := 1.0))).ok
    ensures Validate(s.(data := s.data.(rating := 5.0))).ok
    ensures Rating in Validate(s.(data := s.data.(rating := 0.0))).state.errors
    ensures Rating in Validate(s.(data := s.data.(rating := 5.1))).state.errors
    ensures !Validate(s.(data := s.data.(title := ""))).ok
    ensures !Validate(s.(data := s.data.(genres := []))).ok
    ensures !Validate(s.(imagePreview := "", selectedImage := None)).ok
  {
  }

  /** The rating input: the parsed number, or 0 when the text is not a number
      (`parseFloat` gave NaN). */
  function EnterRating(s: FormState, parsed: Option<real>): (r: FormState)
    ensures r.data.rating == parsed.GetOr(0.0)
    ensures r == s.(data := s.data.(rating := r.data.rating))
    ensures parsed.None? ==> Rating in ValidationErrors(r)
  {
    s.(data := s.data.(rating := if parsed.Some? then parsed.value else 0.0))
  }

  /** The two list fields `toggleSelection` works on. */
  datatype ListField = GenreList | LanguageList

  /** `toggleSelection(field, value)`: flips `value` in that list and keeps the
      membership of every other value; every other field of the form, and the
      rest of the state, stays as it was. */
  function ToggleSelection(s: FormState, field: ListField, value: string): (r: FormState)
    ensures field == GenreList ==>
      && (value in r.data.genres <==> value !in s.data.genres)
      && (forall x :: x != value ==> (x in r.data.genres <==> x in s.data.genres))
      && r.data == s.data.(genres := r.data.genres)
    ensures field == LanguageList ==>
      && (value in r.data.languages <==> value !in s.data.languages)
      && (forall x :: x != value ==> (x in r.data.languages <==> x in s.data.languages))
      && r.data == s.data.(languages := r.data.languages)
    ensures r == s.(data := r.data)
  {
    match field
    case GenreList => s.(data := s.data.(genres := Toggle(s.data.genres, value)))
    case LanguageList => s.(data := s.data.(languages := Toggle(s.data.languages, value)))
  }

  /** Toggling an absent value twice restores the form. */
  lemma ToggleSelectionTwice(s: FormState, field: ListField, value: string)
    requires field == GenreList ==> value !in s.data.genres
    requires field == LanguageList ==> value !in s.data.languages
    ensures ToggleSelection(ToggleSelection(s, field, value), field, value) == s
  {
    match field
    case GenreList => ToggleTwiceRestores(s.data.genres, value);
    case LanguageList => ToggleTwiceRestores(s.data.languages, value);
  }

  /** `toggleSelection` keeps both lists free of duplicates. */
  lemma ToggleSelectionNoDuplicates(s: FormState, field: ListField, value: string)
    requires NoDuplicates(s.data.genres) && NoDuplicates(s.data.languages)
    ensures NoDuplicates(ToggleSelection(s, field, value).data.genres)
    ensures NoDuplicates(ToggleSelection(s, field, value).data.languages)
  {
    ToggleNoDuplicates(s.data.genres, value);
    ToggleNoDuplicates(s.data.languages, value);
  }

  /** `handleImageChange`, up to the start of the file read. With no file
      nothing happens; a file over 5 MB only sets the poster error; otherwise
      the poster error is cleared and the file is selected. The preview follows
      later, when the read completes (`PreviewLoaded`). */
  function ImageChange(s: FormState, file: Option<ImageFile>): (r: FormState)
    ensures file.None? ==> r == s
    ensures file.Some? && file.value.size > MaxPosterBytes ==>
      && r.errors == s.errors[Poster := PosterTooLarge]
      && r == s.(errors := r.errors)
    ensures file.Some? && file.value.size <= MaxPosterBytes ==>
      && r.selectedImage == file
      && r.errors == s.errors - {Poster}
      && r.data == s.data && r.imagePreview == s.imagePreview
  {
    match file
    case None => s
    case Some(f) =>
      if f.size > MaxPosterBytes then s.(errors := s.errors[Poster := PosterTooLarge])
      else s.(errors := s.errors - {Poster}, selectedImage := Some(f))
  }

  /** An accepted file satisfies the poster check at once, before its read
      completes; an oversized one leaves every validation error as it was, so
      it never makes the form complete. */
  lemma ImageChangeValidation(s: FormState, f: ImageFile)
    ensures f.size <= MaxPosterBytes ==> Poster !in ValidationErrors(ImageChange(s, Some(f)))
    ensures f.size > MaxPosterBytes ==> ValidationErrors(ImageChange(s, Some(f))) == ValidationErrors(s)
  {
  }

  /** The read of a picked file completes: its data URL becomes the preview,
      and a non-empty preview satisfies the poster requirement. */
  function PreviewLoaded(s: FormState, file: ImageFile): (r: FormState)
    ensures r.imagePreview == file.dataUrl
    ensures r == s.(imagePreview := r.imagePreview)
    ensures file.dataUrl != "" ==> Poster !in ValidationErrors(r)
  {
    s.(imagePreview := file.dataUrl)
  }

  /** The remove button on the preview: the poster requirement fails again. */
  function RemoveImage(s: FormState): (r: FormState)
    ensures r == s.(imagePreview := "", selectedImage := None)
    ensures Poster in ValidationErrors(r)
  {
    s.(imagePreview := "", selectedImage := None)
  }

  /** A movie as sent to the store: the form fields plus the poster URL. */
  datatype MovieInput = MovieInput(data: FormData, posterUrl: string)

  /** The store call a submission makes, if any. */
  datatype StoreCall = NoCall | AddMovie(input: MovieInput) | UpdateMovie(id: string, input: MovieInput)

  /** The state after a submission and the call it issued. */
  datatype Submitted = Submitted(state: FormState, call: StoreCall)

  /** `handleSubmit`: nothing reaches the store unless validation passes; then
      an edit of a movie with a (non-empty) id updates it, and every other
      case adds a new movie. The poster URL is the current preview. */
  function Submit(s: FormState, isEdit: bool, initialId: Option<string>): (r: Submitted)
    ensures r.state == Validate(s).state
    ensures r.call.NoCall? <==> !Complete(s)
    ensures r.call.UpdateMovie? <==> Complete(s) && isEdit && initialId.Some? && initialId.value != ""
    ensures r.call.UpdateMovie? ==> r.call.id == initialId.value
    ensures !r.call.NoCall? ==> r.call.input == MovieInput(s.data, s.imagePreview)
  {
    var v := Validate(s);
    if !v.ok then Submitted(v.state, NoCall)
    else
      var input := MovieInput(s.data, s.imagePreview);
      if isEdit && initialId.Some? && initialId.value != "" then Submitted(v.state, UpdateMovie(initialId.value, input))
      else Submitted(v.state, AddMovie(input))
  }

  /** Whatever reaches the store has a title, a genre, a language, a review
      and a rating in [1, 5]. */
  lemma SubmittedInputWellFormed(s: FormState, isEdit: bool, initialId: Option<string>)
    requires !Submit(s, isEdit, initialId).call.NoCall?
    ensures
      var d := Submit(s, isEdit, initialId).call.input.data;
      d.title != "" && |d.genres| > 0 && |d.languages| > 0 && d.review != "" && 1.0 <= d.rating <= 5.0
  {
  }

  /** The poster check accepts a picked file whose read has not finished, while
      the URL sent is the preview: a submission in that window adds a movie
      with an empty poster URL. */
  lemma SubmitBeforePreviewLoads()
    ensures
      var s := ImageChange(InitialForm(None).(data := FormData("Nova", ["Sci-Fi"], ["English"], U, 4.0, "Good")),
                           Some(ImageFile(1024, "data:image/png;base64,AA")));
      Submit(s, false, None).call == AddMovie(MovieInput(s.data, ""))
  {
  }

  /** A blank add form fails every check except the certificate. */
  lemma BlankFormErrors()
    ensures ValidationErrors(InitialForm(None)).Keys == {Title, Genres, Languages, Poster, Review, Rating}
  {
  }

  /** Opening the edit form on a well-formed stored movie and saving it
      unchanged passes validation and updates that movie. */
  lemma EditUnchangedSaves(m: Movie)
    requires m.title != "" && |m.genres| > 0 && |m.languages| > 0
    requires m.posterUrl != "" && m.review != "" && 1.0 <= m.rating <= 5.0
    ensures Validate(InitialForm(Some(m))).ok
    ensures m.id.Some? && m.id.value != "" ==>
      Submit(InitialForm(Some(m)), true, m.id).call == UpdateMovie(m.id.value, MovieInput(InitialForm(Some(m)).data, m.posterUrl))
  {
  }
}

=== FILE: dashboard.dfy ===
/** The admin dashboard (app/admin/dashboard/page.tsx): the sign-in guard,
    loading the catalog, and deleting a movie after confirmation. */
module Dashboard {
  import opened Options
  import opened Seqs
  import opened MovieTypes

  /** The page's state: its copy of the catalog, whether the first load is
      still running, and the id of the movie being deleted (`null` when none). */
  datatype Dashboard = Dashboard(movies: seq<Movie>, isLoading: bool, deletingId: Option<string>)

  /** The page's state on mount. */
  const InitialDashboard := Dashboard([], true, None)

  /** What `useAuth` reports: whether the session check is still running and whether someone is signed in. */
  datatype Auth = Auth(loading: bool, signedIn: bool)

  /** What the page's effect does on mount and on every change of the session. */
  datatype Effect = RedirectToLogin | LoadMovies

  /** The effect: once the session check has finished without a user, go to the
      login page and load nothing; in every other case (including while the
      check is still running) load the catalog. */
  function AuthEffect(auth: Auth): (e: Effect)
    ensures e == RedirectToLogin <==> !auth.loading && !auth.signedIn
  {
    if !auth.loading && !auth.signedIn then RedirectToLogin else LoadMovies
  }

  /** What the page renders. */
  datatype View = AuthSpinner | MoviesSpinner | NoMoviesYet | Grid(shown: seq<Movie>)

  /** The page: a spinner until a signed-in user is known, another until the
      catalog has loaded, then either the empty message or the grid. */
  function Render(auth: Auth, d: Dashboard): (v: View)
    ensures v == AuthSpinner <==> auth.loading || !auth.signedIn
    ensures v == MoviesSpinner <==> !auth.loading && auth.signedIn && d.isLoading
    ensures v == NoMoviesYet <==> !auth.loading && auth.signedIn && !d.isLoading && |d.movies| == 0
    ensures v.Grid? ==> auth.signedIn && !d.isLoading && v.shown == d.movies && |v.shown| > 0
    ensures !auth.loading && auth.signedIn && !d.isLoading && |d.movies| > 0 ==> v == Grid(d.movies)
  {
    if auth.loading || !auth.signedIn then AuthSpinner
    else if d.isLoading then MoviesSpinner
    else if |d.movies| == 0 then NoMoviesYet
    else Grid(d.movies)
  }

  /** Whenever the effect redirects, the page shows no catalog content. */
  lemma RedirectShowsNothing(auth: Auth, d: Dashboard)
    requires AuthEffect(auth) == RedirectToLogin
    ensures Render(auth, d) == AuthSpinner
  {
  }

  /** Before its first load finishes the page shows a spinner, never a list. */
  lemma InitialShowsSpinner(auth: Auth)
    ensures Render(auth, InitialDashboard) == AuthSpinner || Render(auth, InitialDashboard) == MoviesSpinner
    ensures auth.signedIn && !auth.loading ==> Render(auth, LoadFinished(InitialDashboard, Some([]))) == NoMoviesYet
  {
  }

  /** `loadMovies` has finished: the fetched list replaces the page's copy, a
      failure keeps it; either way the loading spinner goes. */
  function LoadFinished(d: Dashboard, fetched: Option<seq<Movie>>): (r: Dashboard)
    ensures !r.isLoading
    ensures r.movies == fetched.GetOr(d.movies)
    ensures r.deletingId == d.deletingId
  {
    d.(movies := if fetched.Some? then fetched.value else d.movies, isLoading := false)
  }

  /** Once a signed-in user's load succeeds, the page shows what was fetched. */
  lemma LoadedListShown(auth: Auth, d: Dashboard, fetched: seq<Movie>)
    requires auth.signedIn && !auth.loading
    ensures Render(auth, LoadFinished(d, Some(fetched))) == if |fetched| == 0 then NoMoviesYet else Grid(fetched)
  {
  }

  /** The predicate `movie => movie.id !== id`; a movie without an id is kept. */
  function IdDiffers(id: string): Movie -> bool {
    (m: Movie) => m.id != Some(id)
  }

  /** `movies.filter((movie) => movie.id !== id)`. */
  function RemoveById(movies: seq<Movie>, id: string): (r: seq<Movie>)
    ensures |r| <= |movies|
    ensures forall i :: 0 <= i < |r| ==> r[i].id != Some(id) && r[i] in movies
    ensures forall i :: 0 <= i < |movies| && movies[i].id != Some(id) ==> movies[i] in r
  {
    Filter(movies, IdDiffers(id))
  }

  /** Removal by id keeps the other movies in their relative order, each once. */
  lemma RemoveByIdKeepsOrder(movies: seq<Movie>, id: string) returns (idx: seq<nat>)
    ensures Embeds(idx, RemoveById(movies, id), movies)
    ensures forall i :: 0 <= i < |movies| ==> (i in idx <==> movies[i].id != Some(id))
  {
    idx := KeptIndices(movies, IdDiffers(id));
  }

  /** The delete button of `m` is disabled while `m`'s deletion is in flight. */
  predicate DeleteDisabled(d: Dashboard, m: Movie) {
    d.deletingId.Some? && m.id == d.deletingId
  }

  /** A deletion issued to the store: the id, and the list of movies the
      handler's closure saw when it was clicked. */
  datatype PendingDelete = PendingDelete(id: string, captured: seq<Movie>)

  /** A click on the delete button of `m`, answered `confirmed` in the dialog.
      A disabled button, a movie without an id, or a declined dialog do
      nothing; otherwise the deletion starts and its button is disabled. */
  function BeginDelete(d: Dashboard, m: Movie, confirmed: bool): (r: (Dashboard, Option<PendingDelete>))
    ensures r.1.Some? <==> confirmed && !DeleteDisabled(d, m) && m.id.Some? && m.id.value != ""
    ensures r.1.None? ==> r.0 == d
    ensures r.1.Some? ==>
      && r.1.value == PendingDelete(m.id.value, d.movies)
      && r.0 == d.(deletingId := Some(m.id.value))
      && DeleteDisabled(r.0, m)
  {
    if DeleteDisabled(d, m) || m.id.None? || m.id.value == "" || !confirmed then (d, None)
    else (d.(deletingId := m.id), Some(PendingDelete(m.id.value, d.movies)))
  }

  /** The store call has settled, AS WRITTEN: on success the page's list becomes
      the list the closure captured at click time minus the deleted movie; on
      failure the list is kept. `deletingId` is cleared either way. */
  function FinishDeleteAsWritten(d: Dashboard, p: PendingDelete, succeeded: bool): (r: Dashboard)
    ensures r.deletingId == None && r.isLoading == d.isLoading
    ensures succeeded ==> forall i :: 0 <= i < |r.movies| ==> r.movies[i] in p.captured && r.movies[i].id != Some(p.id)
    ensures succeeded ==> forall i :: 0 <= i < |p.captured| && p.captured[i].id != Some(p.id) ==> p.captured[i] in r.movies
    ensures !succeeded ==> r.movies == d.movies
  {
    d.(movies := if succeeded then RemoveById(p.captured, p.id) else d.movies, deletingId := None)
  }

  /** Two deletions in flight at once, both successful: the second to settle
      writes back the list its closure captured, and the first movie returns. */
  lemma OverlappingDeletesAsWritten()
    ensures
      var a := Movie(Some("a"), "Nova", ["Sci-Fi"], ["English"], U, 4.0, "p", "r", 2);
      var b := Movie(Some("b"), "Bloodline", ["Horror"], ["English"], A, 2.0, "p", "r", 1);
      var d0 := Dashboard([a, b], false, None);
      var (d1, pa) := BeginDelete(d0, a, true);
      var (d2, pb) := BeginDelete(d1, b, true);
      && pa.Some? && pb.Some?
      && FinishDeleteAsWritten(FinishDeleteAsWritten(d2, pa.value, true), pb.value, true).movies == [a]
  {
    var a := Movie(Some("a"), "Nova", ["Sci-Fi"], ["English"], U, 4.0, "p", "r", 2);
    var b := Movie(Some("b"), "Bloodline", ["Horror"], ["English"], A, 2.0, "p", "r", 1);
    var p := IdDiffers("b");
    assert p(a) && !p(b);
    assert [a, b][..1] == [a];
    assert [a][..0] == [];
    assert Filter([a], p) == [a];
  }

  /** The store call has settled: on success the deleted movie leaves the
      page's current list; on failure the list is kept. `deletingId` is
      cleared either way. */
  function FinishDelete(d: Dashboard, p: PendingDelete, succeeded: bool): (r: Dashboard)
    ensures r.deletingId == None && r.isLoading == d.isLoading
    ensures succeeded ==> forall i :: 0 <= i < |r.movies| ==> r.movies[i] in d.movies && r.movies[i].id != Some(p.id)
    ensures succeeded ==> forall i :: 0 <= i < |d.movies| && d.movies[i].id != Some(p.id) ==> d.movies[i] in r.movies
    ensures !succeeded ==> r.movies == d.movies
  {
    d.(movies := if succeeded then RemoveById(d.movies, p.id) else d.movies, deletingId := None)
  }

  /** Two deletions in flight at once, both successful, remove both movies
      whatever order they settle in. */
  lemma OverlappingDeletesRemoveBoth(d: Dashboard, pa: PendingDelete, pb: PendingDelete)
    ensures forall i :: 0 <= i < |FinishDelete(FinishDelete(d, pa, true), pb, true).movies| ==>
      var m := FinishDelete(FinishDelete(d, pa, true), pb, true).movies[i];
      m.id != Some(pa.id) && m.id != Some(pb.id)
  {
  }

  /** `handleDelete` with nothing else happening while the store call runs:
      a declined dialog changes nothing and issues nothing; a confirmed one
      issues the deletion and ends with `deletingId` cleared, with the movie
      gone on success and the list untouched on failure. */
  function HandleDelete(d: Dashboard, m: Movie, confirmed: bool, succeeded: bool): (r: (Dashboard, bool))
    ensures r.1 <==> confirmed && !DeleteDisabled(d, m) && m.id.Some? && m.id.value != ""
    ensures !r.1 ==> r.0 == d
    ensures r.1 ==> r.0.deletingId == None && r.0.isLoading == d.isLoading
    ensures r.1 && succeeded ==>
      && (forall i :: 0 <= i < |r.0.movies| ==> r.0.movies[i].id != m.id)
      && (forall i :: 0 <= i < |d.movies| && d.movies[i].id != m.id ==> d.movies[i] in r.0.movies)
    ensures r.1 && !succeeded ==> r.0.movies == d.movies
  {
    var (started, pending) := BeginDelete(d, m, confirmed);
    match pending
    case None => (started, false)
    case Some(p) => (FinishDelete(started, p, succeeded), true)
  }

  /** A successful deletion keeps exactly the other movies, in their relative order. */
  lemma HandleDeleteKeepsOrder(d: Dashboard, m: Movie, confirmed: bool) returns (idx: seq<nat>)
    requires HandleDelete(d, m, confirmed, true).1
    ensures Embeds(idx, HandleDelete(d, m, confirmed, true).0.movies, d.movies)
    ensures forall i :: 0 <= i < |d.movies| ==> (i in idx <==> d.movies[i].id != m.id)
  {
    idx := RemoveByIdKeepsOrder(d.movies, m.id.value);
  }

  /** With nothing settling in between, the list the handler captured is the
      current one, so the corrected handler and the handler as written agree. */
  lemma HandleDeleteMatchesAsWritten(d: Dashboard, m: Movie, confirmed: bool, succeeded: bool)
    ensures var (started, pending) := BeginDelete(d, m, confirmed);
      pending.Some? ==> HandleDelete(d, m, confirmed, succeeded).0 == FinishDeleteAsWritten(started, pending.value, succeeded)
  {
  }
}

=== FILE: filter_panel.dfy ===
/** The side filter panel (components/FilterPanel.tsx): its own filter state,
    updated by merging partial changes and reported to `onFilterChange`. */
module FilterPanel {
  import opened Options
  import opened Seqs
  import opened MovieTypes
  import opened MovieContext

  /** The buttons the panel offers. */
  const PanelGenres: seq<string> := ["Action", "Comedy", "Drama", "Horror", "Sci-Fi", "Crime", "Thriller"]
  const PanelLanguages: seq<string> := ["English", "Spanish", "Hindi", "French", "Japanese"]
  const PanelCensorRatings: seq<string> := ["U", "U/A", "A"]

  /** The certificate buttons are exactly the labels of the three certificates. */
  lemma CertificateButtonsCoverCensor(c: Censor)
    ensures CensorLabel(c) in PanelCensorRatings
    ensures forall i :: 0 <= i < |PanelCensorRatings| ==> PanelCensorRatings[i] in {CensorLabel(U), CensorLabel(UA), CensorLabel(A)}
  {
  }

  /** The panel's initial `useState` value. */
  const InitialPanelState := Filters([], [], 0.0, 5.0, [])

  /** `Partial<FilterState>`: a field that is `None` is absent from the object. */
  datatype Patch = Patch(
    genres: Option<seq<string>>,
    languages: Option<seq<string>>,
    minRating: Option<real>,
    maxRating: Option<real>,
    censorRatings: Option<seq<string>>
  )

  /** The empty object `{}`. */
  const NoChange := Patch(None, None, None, None, None)

  /** `{ ...f, ...p }`: each field present in the patch replaces the old one. */
  function Merge(f: Filters, p: Patch): (r: Filters)
    ensures p.genres.Some? ==> r.genres == p.genres.value
    ensures p.genres.None? ==> r.genres == f.genres
    ensures p.languages.Some? ==> r.languages == p.languages.value
    ensures p.languages.None? ==> r.languages == f.languages
    ensures p.minRating.Some? ==> r.minRating == p.minRating.value
    ensures p.minRating.None? ==> r.minRating == f.minRating
    ensures p.maxRating.Some? ==> r.maxRating == p.maxRating.value
    ensures p.maxRating.None? ==> r.maxRating == f.maxRating
    ensures p.censorRatings.Some? ==> r.censorRatings == p.censorRatings.value
    ensures p.censorRatings.None? ==> r.censorRatings == f.censorRatings
  {
    Filters(
      p.genres.GetOr(f.genres),
      p.languages.GetOr(f.languages),
      p.minRating.GetOr(f.minRating),
      p.maxRating.GetOr(f.maxRating),
      p.censorRatings.GetOr(f.censorRatings))
  }

  /** `{ ...p, ...q }`: the fields of `q` win over those of `p`. */
  function Then(p: Patch, q: Patch): Patch {
    Patch(
      if q.genres.Some? then q.genres else p.genres,
      if q.languages.Some? then q.languages else p.languages,
      if q.minRating.Some? then q.minRating else p.minRating,
      if q.maxRating.Some? then q.maxRating else p.maxRating,
      if q.censorRatings.Some? then q.censorRatings else p.censorRatings)
  }

  /** Merging nothing changes nothing. */
  lemma MergeNoChange(f: Filters)
    ensures Merge(f, NoChange) == f
  {
  }

  /** Two merges in a row are one merge of the combined patch. */
  lemma MergeThen(f: Filters, p: Patch, q: Patch)
    ensures Merge(Merge(f, p), q) == Merge(f, Then(p, q))
  {
  }

  /** Applying the same patch twice is applying it once. */
  lemma MergeIdempotent(f: Filters, p: Patch)
    ensures Merge(Merge(f, p), p) == Merge(f, p)
  {
  }

  /** The panel's new state and the value passed to `onFilterChange`. */
  datatype Update = Update(state: Filters, reported: Filters)

  /** `handleFilterChange`: store the merged state and report that same state. */
  function HandleFilterChange(f: Filters, p: Patch): (u: Update)
    ensures u.state == Merge(f, p)
    ensures u.reported == u.state
  {
    var merged := Merge(f, p);
    Update(merged, merged)
  }

  /** A genre button: flips that genre and changes nothing else. */
  function ClickGenre(f: Filters, genre: string): (u: Update)
    ensures genre in u.state.genres <==> genre !in f.genres
    ensures forall i :: 0 <= i < |f.genres| && f.genres[i] != genre ==> f.genres[i] in u.state.genres
    ensures forall i :: 0 <= i < |u.state.genres| && u.state.genres[i] != genre ==> u.state.genres[i] in f.genres
    ensures u.state.(genres := f.genres) == f
    ensures u.reported == u.state
  {
    HandleFilterChange(f, NoChange.(genres := Some(Toggle(f.genres, genre))))
  }

  /** A censor button: flips that certificate and changes nothing else. */
  function ClickCensor(f: Filters, rating: string): (u: Update)
    ensures rating in u.state.censorRatings <==> rating !in f.censorRatings
    ensures forall i :: 0 <= i < |f.censorRatings| && f.censorRatings[i] != rating ==> f.censorRatings[i] in u.state.censorRatings
    ensures forall i :: 0 <= i < |u.state.censorRatings| && u.state.censorRatings[i] != rating ==> u.state.censorRatings[i] in f.censorRatings
    ensures u.state.(censorRatings := f.censorRatings) == f
    ensures u.reported == u.state
  {
    HandleFilterChange(f, NoChange.(censorRatings := Some(Toggle(f.censorRatings, rating))))
  }

  /** A language button: flips that language and changes nothing else. */
  function ClickLanguage(f: Filters, language: string): (u: Update)
    ensures language in u.state.languages <==> language !in f.languages
    ensures forall i :: 0 <= i < |f.languages| && f.languages[i] != language ==> f.languages[i] in u.state.languages
    ensures forall i :: 0 <= i < |u.state.languages| && u.state.languages[i] != language ==> u.state.languages[i] in f.languages
    ensures u.state.(languages := f.languages) == f
    ensures u.reported == u.state
  {
    HandleFilterChange(f, NoChange.(languages := Some(Toggle(f.languages, language))))
  }

  /** The lower slider: sets `minRating` to a slider value and nothing else. */
  function SlideMin(f: Filters, v: real): (u: Update)
    requires OnRatingSlider(v)
    ensures u.state.minRating == v && 0.0 <= u.state.minRating <= 5.0
    ensures u.state.(minRating := f.minRating) == f
    ensures u.reported == u.state
  {
    HandleFilterChange(f, NoChange.(minRating := Some(v)))
  }

  /** The upper slider: sets `maxRating` to a slider value and nothing else. */
  function SlideMax(f: Filters, v: real): (u: Update)
    requires OnRatingSlider(v)
    ensures u.state.maxRating == v && 0.0 <= u.state.maxRating <= 5.0
    ensures u.state.(maxRating := f.maxRating) == f
    ensures u.reported == u.state
  {
    HandleFilterChange(f, NoChange.(maxRating := Some(v)))
  }

  /** The patch "Clear All Filters" sends. */
  const ClearPatch := Patch(Some([]), Some([]), Some(0.0), Some(5.0), Some([]))

  /** "Clear All Filters": back to the initial state, whatever was selected. */
  function ClearAll(f: Filters): (u: Update)
    ensures u.state == InitialPanelState
    ensures u.reported == u.state
  {
    HandleFilterChange(f, ClearPatch)
  }

  /** Clearing twice is clearing once. */
  lemma ClearAllIdempotent(f: Filters)
    ensures ClearAll(ClearAll(f).state) == ClearAll(f)
  {
  }

  /** A genre clicked twice, starting absent, leaves the panel as it was. */
  lemma ClickGenreTwice(f: Filters, genre: string)
    requires genre !in f.genres
    ensures ClickGenre(ClickGenre(f, genre).state, genre).state == f
  {
    ToggleTwiceRestores(f.genres, genre);
  }
}

=== FILE: listing.dfy ===
/** The public listing (app/page.tsx): the live catalog snapshot filtered by
    the shared search text and filters, and what the page shows for it. */
module Listing {
  import opened Options
  import opened Seqs
  import opened Text
  import opened MovieTypes
  import opened MovieContext

  /** The search text occurs in the title, both lower-cased. */
  predicate MatchesSearch(title: string, query: string) {
    Includes(ToLower(title), ToLower(query))
  }

  /** No genre selected, or the movie has at least one selected genre. */
  predicate MatchesGenre(m: Movie, f: Filters) {
    |f.genres| == 0 || Intersects(m.genres, f.genres)
  }

  /** No language selected, or the movie has at least one selected language. */
  predicate MatchesLanguage(m: Movie, f: Filters) {
    |f.languages| == 0 || Intersects(m.languages, f.languages)
  }

  /** The rating lies in the closed range [minRating, maxRating]. */
  predicate MatchesRating(m: Movie, f: Filters) {
    m.rating >= f.minRating && m.rating <= f.maxRating
  }

  /** No certificate selected, or the movie's certificate is selected. */
  predicate MatchesCensor(m: Movie, f: Filters) {
    |f.censorRatings| == 0 || CensorLabel(m.censor) in f.censorRatings
  }

  /** The conjunction of the five tests the listing applies to each movie. */
  predicate Keep(m: Movie, query: string, f: Filters) {
    && MatchesSearch(m.title, query)
    && MatchesGenre(m, f)
    && MatchesLanguage(m, f)
    && MatchesRating(m, f)
    && MatchesCensor(m, f)
  }

  /** The callback handed to `movies.filter`. */
  function KeepPredicate(query: string, f: Filters): Movie -> bool {
    m => Keep(m, query, f)
  }

  /** `filteredMovies`: exactly the movies of the snapshot that pass every test. */
  function FilterMovies(movies: seq<Movie>, query: string, f: Filters): (r: seq<Movie>)
    ensures |r| <= |movies|
    ensures forall i :: 0 <= i < |r| ==> r[i] in movies && Keep(r[i], query, f)
    ensures forall i :: 0 <= i < |movies| && Keep(movies[i], query, f) ==> movies[i] in r
  {
    Filter(movies, KeepPredicate(query, f))
  }

  /** The result keeps the snapshot's order: it is the snapshot restricted to
      the positions whose movie passes, each position used once. */
  lemma FilterMoviesPositions(movies: seq<Movie>, query: string, f: Filters) returns (idx: seq<nat>)
    ensures Embeds(idx, FilterMovies(movies, query, f), movies)
    ensures forall i :: 0 <= i < |movies| ==> (i in idx <==> Keep(movies[i], query, f))
  {
    idx := KeptIndices(movies, KeepPredicate(query, f));
  }

  /** No duplication: a passing movie appears exactly as often as in the
      snapshot, a failing one never. */
  lemma FilterMoviesCounts(movies: seq<Movie>, query: string, f: Filters)
    ensures forall m :: multiset(FilterMovies(movies, query, f))[m]
                        == if Keep(m, query, f) then multiset(movies)[m] else 0
  {
    FilterMultiset(movies, KeepPredicate(query, f));
  }

  /** Empty search text matches every title. */
  lemma EmptySearchMatchesAll(title: string)
    ensures MatchesSearch(title, "")
  {
    IncludesEmpty(ToLower(title));
  }

  /** The search is a case-insensitive substring test. */
  lemma SearchIsSubstringIgnoringCase(title: string, query: string)
    ensures MatchesSearch(title, query) <==> exists i :: OccursAt(ToLower(title), ToLower(query), i)
    ensures MatchesSearch(title, query) <==> MatchesSearch(ToLower(title), ToLower(query))
  {
    IncludesIffOccurs(ToLower(title), ToLower(query));
    ToLowerIdempotent(title);
    ToLowerIdempotent(query);
  }

  /** Search texts that lower-case alike select the same movies. */
  lemma SearchCaseInsensitive(movies: seq<Movie>, q1: string, q2: string, f: Filters)
    requires ToLower(q1) == ToLower(q2)
    ensures FilterMovies(movies, q1, f) == FilterMovies(movies, q2, f)
  {
    FilterCongruent(movies, KeepPredicate(q1, f), KeepPredicate(q2, f));
  }

  /** With nothing selected and no search text only the rating range filters. */
  lemma EmptySelectionsFilterByRatingOnly(movies: seq<Movie>, f: Filters)
    requires f.genres == [] && f.languages == [] && f.censorRatings == []
    ensures forall m :: m in FilterMovies(movies, "", f) <==> m in movies && MatchesRating(m, f)
  {
    forall m | m in movies
      ensures Keep(m, "", f) <==> MatchesRating(m, f)
    {
      EmptySearchMatchesAll(m.title);
    }
  }

  /** The provider's defaults with empty search text are the identity on a
      snapshot whose ratings lie in [0, 5]. */
  lemma DefaultFiltersKeepAll(movies: seq<Movie>)
    requires forall i :: 0 <= i < |movies| ==> 0.0 <= movies[i].rating <= 5.0
    ensures FilterMovies(movies, "", DefaultFilters) == movies
  {
    forall i | 0 <= i < |movies|
      ensures KeepPredicate("", DefaultFilters)(movies[i])
    {
      EmptySearchMatchesAll(movies[i].title);
    }
    FilterKeepsAll(movies, KeepPredicate("", DefaultFilters));
  }

  /** A range with minRating > maxRating lets nothing through. */
  lemma InvertedRangeKeepsNothing(movies: seq<Movie>, query: string, f: Filters)
    requires f.minRating > f.maxRating
    ensures FilterMovies(movies, query, f) == []
  {
    FilterKeepsNone(movies, KeepPredicate(query, f));
  }

  /** Selected genres are matched by intersection, not by inclusion. */
  lemma GenreMatchIsIntersection(m: Movie, f: Filters)
    requires m.genres == ["Action", "Drama"]
    ensures f.genres == ["Drama", "Horror"] ==> MatchesGenre(m, f)
    ensures f.genres == ["Horror", "Thriller"] ==> !MatchesGenre(m, f)
  {
    if f.genres == ["Drama", "Horror"] {
      assert m.genres[1] in f.genres;
    }
  }

  /** Both ends of the rating range are inclusive. */
  lemma RatingRangeInclusive(m: Movie, f: Filters)
    ensures m.rating == 5.0 && f.minRating == 0.0 && f.maxRating == 5.0 ==> MatchesRating(m, f)
    ensures m.rating == 5.0 && f.minRating == 5.0 && f.maxRating == 5.0 ==> MatchesRating(m, f)
    ensures m.rating == 3.0 && f.minRating == 3.1 ==> !MatchesRating(m, f)
  {
  }

  /** "no" occurs in "Nova" once both are lower-cased. */
  lemma NovaMatchesNo()
    ensures MatchesSearch("Nova", "no")
  {
    assert ToLower("no") == "no";
    assert ToLower("Nova") == "nova";
    assert StartsWith("nova", "no");
  }

  /** "no" does not occur in "Bloodline", whatever the case. */
  lemma BloodlineLacksNo()
    ensures !MatchesSearch("Bloodline", "no")
  {
    var lb := ToLower("Bloodline");
    assert lb == "bloodline";
    assert ToLower("no") == "no";
    IncludesIffOccurs(lb, "no");
    forall i | 0 <= i <= 7
      ensures !OccursAt(lb, "no", i)
    {
      assert lb[i..i + 2] == [lb[i], lb[i + 1]];
    }
  }

  /** Two movies of the catalog used by the scenarios below. */
  const Nova := Movie(None, "Nova", ["Sci-Fi"], ["English"], U, 4.2, "", "", 1)
  const Bloodline := Movie(None, "Bloodline", ["Horror"], ["English"], A, 2.0, "", "", 0)

  /** Searching "no" with default filters lists "Nova" only. */
  lemma SearchScenario()
    ensures FilterMovies([Nova, Bloodline], "no", DefaultFilters) == [Nova]
  {
    NovaMatchesNo();
    BloodlineLacksNo();
    var p := KeepPredicate("no", DefaultFilters);
    assert p(Nova) && !p(Bloodline);
    assert [Nova, Bloodline][..1] == [Nova];
    assert [Nova][..0] == [];
    assert Filter([Nova], p) == [Nova];
    assert Filter([Nova, Bloodline], p) == Filter([Nova], p);
  }

  /** Selecting "Horror" with no search text lists "Bloodline" only. */
  lemma GenreScenario()
    ensures FilterMovies([Nova, Bloodline], "", DefaultFilters.(genres := ["Horror"])) == [Bloodline]
  {
    var hf := DefaultFilters.(genres := ["Horror"]);
    EmptySearchMatchesAll("Bloodline");
    assert !Intersects(Nova.genres, hf.genres);
    assert Bloodline.genres[0] in hf.genres;
    var p := KeepPredicate("", hf);
    assert !p(Nova) && p(Bloodline);
    assert [Nova, Bloodline][..1] == [Nova];
    assert [Nova][..0] == [];
    assert Filter([Nova], p) == [];
    assert Filter([Nova, Bloodline], p) == [Bloodline];
  }

  /** What the listing page renders. */
  datatype View = Skeletons | NoMoviesFound | NoMatches | Cards(shown: seq<Movie>)

  /** The page: skeletons until the first snapshot, a distinct message for
      an empty catalog and for filters that match nothing, else the cards. */
  function RenderListing(isLoading: bool, movies: seq<Movie>, ctx: Context): (v: View)
    ensures v == Skeletons <==> isLoading
    ensures v == NoMoviesFound <==> !isLoading && |movies| == 0
    ensures v.Cards? ==> v.shown == FilterMovies(movies, ctx.searchQuery, ctx.filters)
    ensures v == NoMatches <==> !isLoading && |movies| > 0 && |FilterMovies(movies, ctx.searchQuery, ctx.filters)| == 0
  {
    var filtered := FilterMovies(movies, ctx.searchQuery, ctx.filters);
    if isLoading then Skeletons
    else if |filtered| == 0 then (if |movies| == 0 then NoMoviesFound else NoMatches)
    else Cards(filtered)
  }
}

=== FILE: movie.dfy ===
/** The catalog entry as stored and listed (types/movie.ts). */
module MovieTypes {
  import opened Options

  /** The censor certificate: the string literal union 'U' | 'U/A' | 'A'. */
  datatype Censor = U | UA | A

  /** The string a censor certificate is written as; filter selections hold these strings. */
  function CensorLabel(c: Censor): string {
    match c
    case U => "U"
    case UA => "U/A"
    case A => "A"
  }

  /** One reviewed title. `id` is absent until the store assigns one;
      `createdAt` is the store's timestamp, kept opaque. */
  datatype Movie = Movie(
    id: Option<string>,
    title: string,
    genres: seq<string>,
    languages: seq<string>,
    censor: Censor,
    rating: real,
    posterUrl: string,
    review: string,
    createdAt: int
  )
}

=== FILE: movie_context.dfy ===
/** The shared search and filter state every page reads (context/MovieContext.tsx). */
module MovieContext {

  /** `MovieFilters`; `FilterState` of the filter panel has the same shape. */
  datatype Filters = Filters(
    genres: seq<string>,
    languages: seq<string>,
    minRating: real,
    maxRating: real,
    censorRatings: seq<string>
  )

  /** No selection and the full 0..5 rating range. */
  const DefaultFilters := Filters([], [], 0.0, 5.0, [])

  /** The provider's state: the raw search text and the filters. */
  datatype Context = Context(searchQuery: string, filters: Filters)

  /** The provider's initial state. */
  const DefaultContext := Context("", DefaultFilters)

  /** A value a rating slider (`type="range"`, min 0, max 5, step 0.5) can produce. */
  predicate OnRatingSlider(v: real) {
    0.0 <= v <= 5.0 && (2.0 * v).Floor as real == 2.0 * v
  }
}

=== FILE: navbar.dfy ===
/** The navigation bar (components/Navbar.tsx): the only writer of the shared
    search text and filters. Its search inputs set the search text; its filter
    dropdown toggles genres and languages and moves the two rating sliders. */
module Navbar {
  import opened Seqs
  import opened MovieTypes
  import opened MovieContext
  import opened Listing
  import AdminMovieForm
  import FilterPanel

  /** The genre and language buttons of the dropdown. */
  const NavbarGenres: seq<string> :=
    ["Action", "Comedy", "Drama", "Horror", "Thriller", "Romance", "Sci-Fi", "Documentary"]
  const NavbarLanguages: seq<string> :=
    ["English", "Spanish", "French", "German", "Hindi", "Japanese", "Korean", "Chinese"]

  /** Any of the three search inputs: the raw text becomes the search text. */
  function TypeSearch(ctx: Context, text: string): (r: Context)
    ensures r.searchQuery == text
    ensures r.filters == ctx.filters
  {
    ctx.(searchQuery := text)
  }

  /** A genre button: flips that genre; languages, ratings, certificates and
      search text are untouched. */
  function ClickGenre(ctx: Context, genre: string): (r: Context)
    ensures genre in r.filters.genres <==> genre !in ctx.filters.genres
    ensures forall i :: 0 <= i < |ctx.filters.genres| && ctx.filters.genres[i] != genre ==> ctx.filters.genres[i] in r.filters.genres
    ensures forall i :: 0 <= i < |r.filters.genres| && r.filters.genres[i] != genre ==> r.filters.genres[i] in ctx.filters.genres
    ensures r.filters.(genres := ctx.filters.genres) == ctx.filters
    ensures r.searchQuery == ctx.searchQuery
  {
    ctx.(filters := ctx.filters.(genres := Toggle(ctx.filters.genres, genre)))
  }

  /** A language button: flips that language and touches nothing else. */
  function ClickLanguage(ctx: Context, language: string): (r: Context)
    ensures language in r.filters.languages <==> language !in ctx.filters.languages
    ensures forall i :: 0 <= i < |ctx.filters.languages| && ctx.filters.languages[i] != language ==> ctx.filters.languages[i] in r.filters.languages
    ensures forall i :: 0 <= i < |r.filters.languages| && r.filters.languages[i] != language ==> r.filters.languages[i] in ctx.filters.languages
    ensures r.filters.(languages := ctx.filters.languages) == ctx.filters
    ensures r.searchQuery == ctx.searchQuery
  {
    ctx.(filters := ctx.filters.(languages := Toggle(ctx.filters.languages, language)))
  }

  /** The minimum slider: `minRating` takes the slider value, nothing else moves. */
  function SlideMin(ctx: Context, v: real): (r: Context)
    requires OnRatingSlider(v)
    ensures r.filters.minRating == v && OnRatingSlider(r.filters.minRating)
    ensures r.filters.(minRating := ctx.filters.minRating) == ctx.filters
    ensures r.searchQuery == ctx.searchQuery
  {
    ctx.(filters := ctx.filters.(minRating := v))
  }

  /** The maximum slider: `maxRating` takes the slider value, nothing else moves. */
  function SlideMax(ctx: Context, v: real): (r: Context)
    requires OnRatingSlider(v)
    ensures r.filters.maxRating == v && OnRatingSlider(r.filters.maxRating)
    ensures r.filters.(maxRating := ctx.filters.maxRating) == ctx.filters
    ensures r.searchQuery == ctx.searchQuery
  {
    ctx.(filters := ctx.filters.(maxRating := v))
  }

  /** Everything the user can do to the shared state through the navigation bar. */
  datatype Event =
    | SearchInput(text: string)
    | GenreClick(genre: string)
    | LanguageClick(language: string)
    | MinSlider(minValue: real)
    | MaxSlider(maxValue: real)

  /** Slider events carry values the range inputs can produce. */
  predicate SliderValuesValid(e: Event) {
    && (e.MinSlider? ==> OnRatingSlider(e.minValue))
    && (e.MaxSlider? ==> OnRatingSlider(e.maxValue))
  }

  /** An event some control of the bar can fire: a button of the vocabulary or a slider value. */
  predicate Offered(e: Event) {
    && SliderValuesValid(e)
    && (e.GenreClick? ==> e.genre in NavbarGenres)
    && (e.LanguageClick? ==> e.language in NavbarLanguages)
  }

  /** One handler run. No handler writes the certificate selection, and only
      the search inputs write the search text, which then is the raw input. */
  function Step(ctx: Context, e: Event): (r: Context)
    requires SliderValuesValid(e)
    ensures r.filters.censorRatings == ctx.filters.censorRatings
    ensures e.SearchInput? ==> r.searchQuery == e.text && r.filters == ctx.filters
    ensures !e.SearchInput? ==> r.searchQuery == ctx.searchQuery
  {
    match e
    case SearchInput(text) => TypeSearch(ctx, text)
    case GenreClick(g) => ClickGenre(ctx, g)
    case LanguageClick(l) => ClickLanguage(ctx, l)
    case MinSlider(v) => SlideMin(ctx, v)
    case MaxSlider(v) => SlideMax(ctx, v)
  }

  /** A session of navigation-bar events, applied in order. */
  function Run(ctx: Context, events: seq<Event>): Context
    requires forall i :: 0 <= i < |events| ==> SliderValuesValid(events[i])
    decreases |events|
  {
    if |events| == 0 then ctx else Run(Step(ctx, events[0]), events[1..])
  }

  /** However long the session, the navigation bar leaves the certificate selection alone. */
  lemma {:induction false} RunKeepsCensorRatings(ctx: Context, events: seq<Event>)
    requires forall i :: 0 <= i < |events| ==> SliderValuesValid(events[i])
    ensures Run(ctx, events).filters.censorRatings == ctx.filters.censorRatings
    decreases |events|
  {
    if |events| > 0 {
      RunKeepsCensorRatings(Step(ctx, events[0]), events[1..]);
    }
  }

  /** What the bar can make of the shared state starting from the provider's
      defaults: selections drawn from its own buttons without repetition, no
      certificate selection, and both bounds on the slider grid. */
  ghost predicate NavbarState(ctx: Context) {
    && (forall i :: 0 <= i < |ctx.filters.genres| ==> ctx.filters.genres[i] in NavbarGenres)
    && (forall i :: 0 <= i < |ctx.filters.languages| ==> ctx.filters.languages[i] in NavbarLanguages)
    && NoDuplicates(ctx.filters.genres)
    && NoDuplicates(ctx.filters.languages)
    && ctx.filters.censorRatings == []
    && OnRatingSlider(ctx.filters.minRating)
    && OnRatingSlider(ctx.filters.maxRating)
  }

  /** The provider's defaults are such a state. */
  lemma DefaultIsNavbarState()
    ensures NavbarState(DefaultContext)
  {
    assert (2.0 * 5.0).Floor == 10;
  }

  /** Every offered event keeps the state within what the bar can produce. */
  lemma StepKeepsNavbarState(ctx: Context, e: Event)
    requires NavbarState(ctx)
    requires Offered(e)
    ensures NavbarState(Step(ctx, e))
  {
    match e
    case GenreClick(g) =>
      ToggleNoDuplicates(ctx.filters.genres, g);
    case LanguageClick(l) =>
      ToggleNoDuplicates(ctx.filters.languages, l);
    case _ =>
  }

  /** Every session of offered events keeps the state within what the bar can produce. */
  lemma {:induction false} RunKeepsNavbarState(ctx: Context, events: seq<Event>)
    requires NavbarState(ctx)
    // `SliderValuesValid` is implied by `Offered`, but `Run`'s precondition needs it spelled out.
    requires forall i :: 0 <= i < |events| ==> SliderValuesValid(events[i]) && Offered(events[i])
    ensures NavbarState(Run(ctx, events))
    decreases |events|
  {
    if |events| > 0 {
      StepKeepsNavbarState(ctx, events[0]);
      RunKeepsNavbarState(Step(ctx, events[0]), events[1..]);
    }
  }

  /** The three vocabularies disagree: a movie filed only under a genre the bar
      does not offer (the admin form's "Crime", say) disappears from the listing
      as soon as any genre is selected in the bar. */
  lemma UnofferedGenresHidden(ctx: Context, m: Movie)
    requires NavbarState(ctx)
    requires |ctx.filters.genres| > 0
    requires forall i :: 0 <= i < |m.genres| ==> m.genres[i] !in NavbarGenres
    ensures !MatchesGenre(m, ctx.filters)
  {
  }

  /** A genre the bar toggles on and off again leaves the shared state as it was. */
  lemma ClickGenreTwice(ctx: Context, genre: string)
    requires genre !in ctx.filters.genres
    ensures ClickGenre(ClickGenre(ctx, genre), genre) == ctx
  {
    ToggleTwiceRestores(ctx.filters.genres, genre);
  }

  /** The three components offer different vocabularies: some genres and
      languages can be given to a movie, or picked in the side panel, but
      never selected in the bar, and the other way round. */
  lemma VocabulariesDiffer()
    ensures "Crime" in AdminMovieForm.FormGenres && "Crime" in FilterPanel.PanelGenres && "Crime" !in NavbarGenres
    ensures "Romance" in NavbarGenres && "Romance" !in FilterPanel.PanelGenres && "Romance" !in AdminMovieForm.FormGenres
    ensures "Telugu" in AdminMovieForm.FormLanguages && "Telugu" !in FilterPanel.PanelLanguages && "Telugu" !in NavbarLanguages
    ensures "German" in NavbarLanguages && "German" !in FilterPanel.PanelLanguages && "German" !in AdminMovieForm.FormLanguages
  {
  }

  /** A movie the admin form files under "Crime" alone drops out of the
      listing as soon as any genre is selected in the bar. */
  lemma CrimeMovieHidden(ctx: Context, m: Movie)
    requires NavbarState(ctx)
    requires |ctx.filters.genres| > 0
    requires m.genres == ["Crime"]
    ensures m.genres[0] in AdminMovieForm.FormGenres
    ensures !MatchesGenre(m, ctx.filters)
  {
    VocabulariesDiffer();
    UnofferedGenresHidden(ctx, m);
  }
}

=== FILE: options.dfy ===
/** Optional values: the model's stand-in for TypeScript's optional
    properties (`id?: string`), `null` and `undefined`. */
module Options {

  datatype Option<+T> = None | Some(value: T) {

    /** The wrapped value, or `default` when there is none (the `x || d`
        and `x ?? d` idioms of the source). */
    function GetOr(default: T): T {
      match this
      case Some(v) => v
      case None => default
    }
  }
}

=== FILE: seqs.dfy ===
/** The JavaScript array operations the application is built from:
    `Array.prototype.filter`, `includes`/`some`, and the "toggle membership"
    idiom `xs.includes(v) ? xs.filter(x => x !== v) : [...xs, v]` that every
    filter widget and the admin form repeat. */
module Seqs {

  /** `s.filter(p)`: the elements of `s` that satisfy `p`, in their order.
      Defined on the last element so that appending to `s` appends to the result. */
  function Filter<T>(s: seq<T>, p: T -> bool): (r: seq<T>)
    ensures |r| <= |s|
    ensures forall i :: 0 <= i < |r| ==> r[i] in s && p(r[i])
    ensures forall i :: 0 <= i < |s| && p(s[i]) ==> s[i] in r
  {
    if |s| == 0 then []
    else
      var init := s[..|s| - 1];
      assert s == init + [s[|s| - 1]];
      Filter(init, p) + (if p(s[|s| - 1]) then [s[|s| - 1]] else [])
  }

  /** `idx` lists, in increasing order, positions of `s` whose elements make up `r`:
      `r` is a subsequence of `s` that keeps relative order and repeats no position. */
  ghost predicate Embeds<T>(idx: seq<nat>, r: seq<T>, s: seq<T>) {
    && |idx| == |r|
    && (forall k :: 0 <= k < |idx| ==> idx[k] < |s| && s[idx[k]] == r[k])
    && (forall k, l :: 0 <= k < l < |idx| ==> idx[k] < idx[l])
  }

  /** Appending one element to `s`, and possibly to `r`, extends an embedding. */
  lemma EmbedsExtend<T>(idx: seq<nat>, r: seq<T>, s: seq<T>, x: T, keep: bool)
    requires Embeds(idx, r, s)
    ensures Embeds(idx + (if keep then [|s|] else []), r + (if keep then [x] else []), s + [x])
  {
  }

  /** Appending the last element of `s`, and possibly a copy of it to `r`, extends
      an embedding into all of `s` but its last element. */
  lemma EmbedsSnoc<T>(idx: seq<nat>, r: seq<T>, s: seq<T>, keep: bool)
    requires |s| > 0
    requires Embeds(idx, r, s[..|s| - 1])
    ensures Embeds(idx + (if keep then [|s| - 1] else []), r + (if keep then [s[|s| - 1]] else []), s)
  {
    assert s == s[..|s| - 1] + [s[|s| - 1]];
    EmbedsExtend(idx, r, s[..|s| - 1], s[|s| - 1], keep);
  }

  /** Unfolding `Filter` once: the last element is kept or dropped on its own. */
  lemma FilterSnoc<T>(s: seq<T>, p: T -> bool)
    requires |s| > 0
    ensures Filter(s, p) == Filter(s[..|s| - 1], p) + (if p(s[|s| - 1]) then [s[|s| - 1]] else [])
  {
  }

  /** Appending position `n`, or nothing, to positions all below `n` adds at most `n`. */
  lemma AppendPosition(prev: seq<nat>, n: nat, keep: bool)
    requires forall k :: 0 <= k < |prev| ==> prev[k] < n
    ensures n in prev + (if keep then [n] else []) <==> keep
    ensures forall i :: 0 <= i < n ==> (i in prev + (if keep then [n] else []) <==> i in prev)
  {
  }

  /** The embedding of `Filter` into all of `s` but its last element, extended by the last one. */
  lemma KeptEmbedsSnoc<T>(s: seq<T>, p: T -> bool, prev: seq<nat>)
    requires |s| > 0
    requires Embeds(prev, Filter(s[..|s| - 1], p), s[..|s| - 1])
    ensures Embeds(prev + (if p(s[|s| - 1]) then [|s| - 1] else []), Filter(s, p), s)
  {
    FilterSnoc(s, p);
    EmbedsSnoc(prev, Filter(s[..|s| - 1], p), s, p(s[|s| - 1]));
  }

  /** The passing positions of all of `s` but its last element, extended by the last one. */
  lemma KeptMembersSnoc<T>(s: seq<T>, p: T -> bool, prev: seq<nat>)
    requires |s| > 0
    requires forall k :: 0 <= k < |prev| ==> prev[k] < |s| - 1
    requires forall i :: 0 <= i < |s| - 1 ==> (i in prev <==> p(s[i]))
    ensures forall i :: 0 <= i < |s| ==> (i in prev + (if p(s[|s| - 1]) then [|s| - 1] else []) <==> p(s[i]))
  {
    AppendPosition(prev, |s| - 1, p(s[|s| - 1]));
  }

  /** The positions of `s` that `Filter(s, p)` keeps. */
  function KeptIndices<T>(s: seq<T>, p: T -> bool): (idx: seq<nat>)
    ensures Embeds(idx, Filter(s, p), s)
    ensures forall i :: 0 <= i < |s| ==> (i in idx <==> p(s[i]))
  {
    if |s| == 0 then []
    else
      var prev := KeptIndices(s[..|s| - 1], p);
      KeptEmbedsSnoc(s, p, prev);
      KeptMembersSnoc(s, p, prev);
      prev + (if p(s[|s| - 1]) then [|s| - 1] else [])
  }

  /** The result of a filter is a subsequence of its input: the same elements
      in the same relative order, each taken from its own position. */
  lemma FilterIsSubsequence<T>(s: seq<T>, p: T -> bool)
    ensures exists idx :: Embeds(idx, Filter(s, p), s)
  {
    var idx := KeptIndices(s, p);
  }

  /** Filtering neither duplicates nor drops occurrences of a kept value:
      each value occurs as often as in `s` if it passes, and never otherwise. */
  lemma {:induction false} FilterMultiset<T>(s: seq<T>, p: T -> bool)
    ensures forall x :: multiset(Filter(s, p))[x] == if p(x) then multiset(s)[x] else 0
  {
    if |s| > 0 {
      var n := |s| - 1;
      FilterMultiset(s[..n], p);
      assert s == s[..n] + [s[n]];
      assert multiset(s) == multiset(s[..n]) + multiset{s[n]};
    }
  }

  /** A filter whose predicate holds of every element is the identity. */
  lemma {:induction false} FilterKeepsAll<T>(s: seq<T>, p: T -> bool)
    requires forall i :: 0 <= i < |s| ==> p(s[i])
    ensures Filter(s, p) == s
  {
    if |s| > 0 {
      var n := |s| - 1;
      FilterKeepsAll(s[..n], p);
      assert s == s[..n] + [s[n]];
    }
  }

  /** A filter whose predicate fails on every element yields nothing. */
  lemma {:induction false} FilterKeepsNone<T>(s: seq<T>, p: T -> bool)
    requires forall i :: 0 <= i < |s| ==> !p(s[i])
    ensures Filter(s, p) == []
  {
    if |s| > 0 {
      FilterKeepsNone(s[..|s| - 1], p);
    }
  }

  /** Two predicates that agree on the elements of `s` filter it alike. */
  lemma {:induction false} FilterCongruent<T>(s: seq<T>, p: T -> bool, q: T -> bool)
    requires forall i :: 0 <= i < |s| ==> p(s[i]) == q(s[i])
    ensures Filter(s, p) == Filter(s, q)
  {
    if |s| > 0 {
      FilterCongruent(s[..|s| - 1], p, q);
    }
  }

  /** No value occurs twice. */
  ghost predicate NoDuplicates<T>(s: seq<T>) {
    forall i, j :: 0 <= i < j < |s| ==> s[i] != s[j]
  }

  /** A subsequence of a duplicate-free sequence is duplicate-free. */
  lemma FilterNoDuplicates<T>(s: seq<T>, p: T -> bool)
    requires NoDuplicates(s)
    ensures NoDuplicates(Filter(s, p))
  {
    var r := Filter(s, p);
    var idx := KeptIndices(s, p);
    forall i, j | 0 <= i < j < |r|
      ensures r[i] != r[j]
    {
      assert idx[i] < idx[j];
    }
  }

  /** `a.some(x => b.includes(x))`: the two sequences share an element. */
  predicate Intersects<T(==)>(a: seq<T>, b: seq<T>) {
    exists i :: 0 <= i < |a| && a[i] in b
  }

  /** The predicate `x => x !== v`. */
  function NotEqualTo<T(==)>(v: T): T -> bool {
    x => x != v
  }

  /** `s.filter(x => x !== v)`: every occurrence of `v` removed, the rest kept in order. */
  function RemoveAll<T(==)>(s: seq<T>, v: T): (r: seq<T>)
    ensures v !in r
    ensures forall i :: 0 <= i < |r| ==> r[i] in s
    ensures forall i :: 0 <= i < |s| && s[i] != v ==> s[i] in r
  {
    Filter(s, NotEqualTo(v))
  }

  /** `s.includes(v) ? s.filter(x => x !== v) : [...s, v]`. */
  function Toggle<T(==)>(s: seq<T>, v: T): (r: seq<T>)
    ensures v in r <==> v !in s
    ensures forall i :: 0 <= i < |r| && r[i] != v ==> r[i] in s
    ensures forall i :: 0 <= i < |s| && s[i] != v ==> s[i] in r
  {
    if v in s then RemoveAll(s, v) else s + [v]
  }

  /** Toggling a value that is absent appends it. */
  lemma ToggleAbsentAppends<T>(s: seq<T>, v: T)
    requires v !in s
    ensures Toggle(s, v) == s + [v]
  {
  }

  /** Toggling an absent value twice gives back the original sequence. */
  lemma ToggleTwiceRestores<T>(s: seq<T>, v: T)
    requires v !in s
    ensures Toggle(Toggle(s, v), v) == s
  {
    var t := s + [v];
    ToggleAbsentAppends(s, v);
    assert t[..|t| - 1] == s;
    FilterKeepsAll(s, NotEqualTo(v));
  }

  /** Toggling keeps a duplicate-free sequence duplicate-free. */
  lemma ToggleNoDuplicates<T>(s: seq<T>, v: T)
    requires NoDuplicates(s)
    ensures NoDuplicates(Toggle(s, v))
  {
    if v in s {
      FilterNoDuplicates(s, NotEqualTo(v));
    }
  }
}

=== FILE: text.dfy ===
/** The two string operations the listing search uses: `toLowerCase()`,
    modelled as ASCII case folding, and `String.prototype.includes`. */
module Text {

  predicate IsUpper(c: char) {
    'A' <= c <= 'Z'
  }

  /** ASCII lower-casing of one character; every other character is left as is. */
  function LowerChar(c: char): char {
    if IsUpper(c) then (c as int - 'A' as int + 'a' as int) as char else c
  }

  /** `s.toLowerCase()` over the ASCII letters. */
  function ToLower(s: string): (r: string)
    ensures |r| == |s|
    ensures forall i :: 0 <= i < |r| ==> !IsUpper(r[i])
    ensures forall i :: 0 <= i < |s| && !IsUpper(s[i]) ==> r[i] == s[i]
    ensures forall i :: 0 <= i < |s| && IsUpper(s[i]) ==> r[i] as int == s[i] as int + 32
  {
    seq(|s|, i requires 0 <= i < |s| => LowerChar(s[i]))
  }

  /** Lower-casing an already lower-cased string changes nothing. */
  lemma ToLowerIdempotent(s: string)
    ensures ToLower(ToLower(s)) == ToLower(s)
  {
  }

  /** The same character, or an ASCII letter and its other case. */
  predicate SameIgnoringCase(a: char, b: char) {
    || a == b
    || (IsUpper(a) && b as int == a as int + 32)
    || (IsUpper(b) && a as int == b as int + 32)
  }

  /** Two strings of one length lower-case alike exactly when they differ only
      in the case of their letters. */
  lemma ToLowerIgnoresCase(s: string, t: string)
    requires |s| == |t|
    ensures ToLower(s) == ToLower(t) <==> forall i :: 0 <= i < |s| ==> SameIgnoringCase(s[i], t[i])
  {
    if ToLower(s) == ToLower(t) {
      forall i | 0 <= i < |s|
        ensures SameIgnoringCase(s[i], t[i])
      {
        assert ToLower(s)[i] == ToLower(t)[i];
      }
    }
  }

  /** `s` begins with `prefix`. */
  predicate StartsWith(s: string, prefix: string) {
    |prefix| <= |s| && s[..|prefix|] == prefix
  }

  /** `s.includes(needle)`: `needle` starts at some offset of `s`. */
  predicate Includes(s: string, needle: string)
    decreases |s|
  {
    StartsWith(s, needle) || (|s| > 0 && Includes(s[1..], needle))
  }

  /** `needle` occurs in `s` at offset `i`. */
  ghost predicate OccursAt(s: string, needle: string, i: int) {
    0 <= i && i + |needle| <= |s| && s[i..i + |needle|] == needle
  }

  /** An occurrence at any offset is found by `Includes`. */
  lemma {:induction false} OccursImpliesIncludes(s: string, needle: string, i: int)
    requires OccursAt(s, needle, i)
    ensures Includes(s, needle)
    decreases i
  {
    if i == 0 {
      assert s[..|needle|] == s[0..0 + |needle|];
    } else {
      assert s[1..][i - 1..i - 1 + |needle|] == s[i..i + |needle|];
      OccursImpliesIncludes(s[1..], needle, i - 1);
    }
  }

  /** `Includes` only succeeds on an actual occurrence. */
  lemma {:induction false} IncludesImpliesOccurs(s: string, needle: string)
    requires Includes(s, needle)
    ensures exists i :: OccursAt(s, needle, i)
    decreases |s|
  {
    if StartsWith(s, needle) {
      assert OccursAt(s, needle, 0);
    } else {
      IncludesImpliesOccurs(s[1..], needle);
      var i :| OccursAt(s[1..], needle, i);
      assert s[1..][i..i + |needle|] == s[i + 1..i + 1 + |needle|];
      assert OccursAt(s, needle, i + 1);
    }
  }

  /** `Includes` agrees with the textbook definition of a substring. */
  lemma IncludesIffOccurs(s: string, needle: string)
    ensures Includes(s, needle) <==> exists i :: OccursAt(s, needle, i)
  {
    if Includes(s, needle) {
      IncludesImpliesOccurs(s, needle);
    }
    forall i | OccursAt(s, needle, i)
      ensures Includes(s, needle)
    {
      OccursImpliesIncludes(s, needle, i);
    }
  }

  /** Every string includes the empty string. */
  lemma IncludesEmpty(s: string)
    ensures Includes(s, "")
  {
    assert StartsWith(s, "");
  }
}
